=== FILE: README.md ===
# A verified model of the request logic of an OpenAI-compatible text-to-speech server

The server exposes a neural text-to-speech model behind `POST /v1/audio/speech`.
Between HTTP decoding and the foreign synthesis and transcoding libraries it
makes four decisions, all in `server.py`, and this project models each as a
pure Dafny function or a small method:

1. **Model registry assembly** (`setup`): from the parsed JSON config list and
   the environment variables `DEFAULT_TTS_MODEL_NAME` and `DEFAULT_VOICE`,
   build the map from model name to default voice. A non-list or empty config
   is rejected. An item missing `model_name` or `default_voice` raises a
   KeyError. An environment model that is set, non-empty and not configured is
   appended. When names repeat, the last entry's voice wins, but the key keeps
   the position of its first insertion (module `ModelRegistry`).
2. **Request normalisation** (`decode_request`): reject a missing or
   unregistered `model`, and a missing or empty `input`. Choose the voice by
   priority: an explicit `voice` (even `""`), then the model's truthy default
   voice, then `DEFAULT_VOICE`, then the literal `"Craig Gutsy"`. Default
   `instructions` (read as the language) to `"en"` and `response_format` to
   `"mp3"` (module `Decode`).
3. **Speaker resolution and language forcing** (inside `predict`): a
   first-match-wins chain over three candidate paths. The three candidates
   are `speaker_ref` itself when it looks like a path, `speakers/<ref>`, and
   `speakers/<ref>.wav`. The result is a reference wav file, or else the
   reference is used as a built-in speaker name. An empty name with no file
   is the "No speaker reference available" error. The language is dropped
   for models whose name lacks `"multi"` (module `Speakers`).
4. **Media type** (`encode_response`): `"audio/" + str(format).lower()`,
   replaced by `"audio/mpeg"` when the format is exactly `"mp3"` (module
   `Encode`).

Module `Pipeline` composes the decisions into the synthesis call and media
type that one request produces. The result stops there: `tts_to_file` and
the transcoding are foreign calls whose own failures are not modelled. The
module also proves a set of example requests, each for any model name and
any filesystem that agrees with the paths the example names. Every example
request that gets past decoding carries a `model` that the registry holds,
because server.py:79-81 rejects a body without one before anything else is
read. The filesystem is the set `fs` of path strings for which
`os.path.exists` holds. JSON values are `Null | Str(s)`. `obj.get(k)` reads
an absent key and an explicit `null` alike. `obj.get(k, d)` falls back to `d`
only for an absent key, so an explicit `"instructions": null` keeps the
language `None`. An explicit `"response_format": null` passes through
`str(...)` in the expression `"audio/" + str(response_format).lower()`
(server.py:196), and so gives `"audio/none"`. Paths follow POSIX
`posixpath`: the separator is `/`, absolute means a leading `/`, and
`join(a, b)` returns `b` when `b` is absolute.

Behaviour of the code worth knowing, which the model follows:

- The voice is a name or a path, never a position. No branch of
  server.py:93-105 or server.py:135-160 looks a voice up by index in a
  sample list. So a voice `"0"` (the value test_client.py:28 sends, in a
  body that server.py:80-81 rejects for its missing `model`) would be
  looked up as `speakers/0` and `speakers/0.wav` and otherwise passed on
  as the speaker name `"0"`.
- `instructions` is read as the language (server.py:108), never as the text.
- The comment at server.py:53 says the default model "must be one of the
  configured models". The code at server.py:56-62 instead appends it when
  it is set and absent from the config (`ModelRegistry.WithEnvDefault`).
- The checks at server.py:79-91 run in order: `model` first, then `input`.
  A body `{"input": ""}` is therefore rejected for its missing `model`
  (`Pipeline.ScenarioEmptyInput`).
- The comparison `response_format == "mp3"` at server.py:198 is exact and
  case-sensitive. `"MP3"` gives `"audio/mp3"`. Any format that lower-cases
  to `"mpeg"` also gives `"audio/mpeg"` through line 196
  (`Encode.MpegExactly`, `Encode.UpperCaseMp3`).
- `predict` creates the `speakers` directory (server.py:130) before
  resolving. So an empty reference joins to `"speakers/"`, which then
  exists, and resolves to that directory as a "wav file". The model leaves
  this to `fs` (`Speakers.EmptyReference`) and does not assume the
  directory exists.

## Model

| member | source | states |
|---|---|---|
| `Values.Get` | server.py:79-95 | `request.get(k)` gives `None` exactly when the key is absent or holds an explicit `null`, and otherwise the stored string |
| `Values.GetOr` | server.py:108-115 | `request.get(k, d)` gives `d` only when the key is absent; a present key, even one holding `null`, gives the stored value |
| `Values.Truthy` | server.py:102 | a JSON value is truthy exactly when it is neither `null` nor the empty string |
| `Values.PyStr` | server.py:196 | `str(v)` is the string itself for a string, and is `"None"` exactly for `null` or the string `"None"` |
| `Text.Contains` | server.py:165 | Python's `t in s` on strings holds exactly when `t` occurs at some position of `s` |
| `Text.Lower` | server.py:196 | `str.lower` keeps the length, lower-cases each ASCII letter in place, and leaves no upper-case ASCII letter |
| `Text.LowerOfLowercase` | server.py:196 | a string with no upper-case letter is unchanged by `lower` |
| `Text.Join` | server.py:142-151 | `os.path.join(a, b)` ends with `b`, starts with `a` unless `b` is absolute, and is non-empty unless both parts are |
| `ModelRegistry.Insert` | server.py:69-70 | assigning `d[name] = voice` adds `name` to the keys and maps it to `voice`, leaves every other key's value alone, keeps an existing key at its position and appends a new key at the end |
| `ModelRegistry.AddsEnvModel` | server.py:56 | the environment model is added exactly when `DEFAULT_TTS_MODEL_NAME` is set, non-empty, and equal to no configured name |
| `ModelRegistry.Register` | server.py:64-70 | the dict built by the registration loop has no repeated keys in its order, its keys are exactly the configured names, and each name maps to the voice of its last entry |
| `ModelRegistry.ParseEntries` | server.py:42-49 | the copy loop succeeds exactly when every item has both keys, copying them in order; otherwise it fails at the first bad item, naming `model_name` before `default_voice` |
| `ModelRegistry.WithEnvDefault` | server.py:53-62 | the environment model is appended, after all configured entries and paired with `DEFAULT_VOICE` (`None` when unset), exactly when it is set, non-empty and not already configured |
| `ModelRegistry.RegisterWithEnvDefault` | server.py:51-70 | the registry's keys are the configured names plus the appended environment model, configured names keep their last entry's voice, and the appended model carries `DEFAULT_VOICE` |
| `ModelRegistry.Setup` | server.py:36-72 | setup is rejected exactly when the config is not a list or is empty, or an item lacks a key (the first such item); on success the registry has the keys and voices above |
| `Decode.EnvVoice` | server.py:105 | `os.getenv("DEFAULT_VOICE", "Craig Gutsy")` is the variable's value when it is set, and is `"Craig Gutsy"` exactly when the variable is unset or set to that name |
| `Decode.ChooseVoice` | server.py:93-105 | a string `voice` in the request wins; otherwise the model's default voice when it is truthy; otherwise the environment voice. An empty result comes only from an explicit empty `voice` or an empty `DEFAULT_VOICE` |
| `Decode.DecodeRequest` | server.py:74-116 | rejections in check order (missing model, unknown model listing the loaded names in order, missing or empty input); on success the model is registered, the text is the non-empty input, the voice follows the priority chain, and language and format take their defaults only when the key is absent |
| `Decode.OnlyReadFieldsMatter` | server.py:79-115 | two bodies that agree on `model`, `input`, `voice`, `instructions` and `response_format` decode identically |
| `Decode.ExplicitEmptyVoiceKept` | server.py:95-97 | an explicit `voice` of `""` is kept, not replaced by a default |
| `Decode.FallbackWhenNothingConfigured` | server.py:99-105 | with no request voice, no truthy model default and `DEFAULT_VOICE` unset, the voice is `"Craig Gutsy"` |
| `Speakers.LooksLikePath` | server.py:137 | `isabs(ref) or sep in ref` holds exactly when the reference contains `/` |
| `Speakers.Candidates` | server.py:137-151 | the paths tried are three for a path-like reference (the reference first) and two otherwise, the last two being `join("speakers", ref)` and `join("speakers", ref + ".wav")`, and none is empty |
| `Speakers.FirstExisting` | server.py:135-151 | the first-match search returns the lowest position whose path exists, or none when no path exists |
| `Speakers.ResolveWav` | server.py:135-151 | the three guarded assignments to `speaker_wav` pick the first existing path of the priority list (ref if path-like, `speakers/<ref>`, `speakers/<ref>.wav`) |
| `Speakers.Resolve` | server.py:132-163 | a file reference is the first existing candidate and non-empty; a speaker name occurs exactly when no candidate exists and the reference is non-empty, and equals the reference; the error occurs exactly when the reference is empty and no candidate exists |
| `Speakers.SpeakerArgs` | server.py:153-160 | exactly one of the `speaker_wav` and `speaker` arguments is set, carrying the resolved value |
| `Speakers.SynthesisLanguage` | server.py:165-166 | the language is `None` when the model name does not contain `"multi"`, and unchanged when it does |
| `Speakers.PathLikeReferenceWins` | server.py:136-139 | an existing absolute or separator-containing reference is used as the wav path as it is |
| `Speakers.ExactNameBeforeWav` | server.py:141-145 | when step 1 does not match, an existing `speakers/<ref>` wins over `speakers/<ref>.wav` |
| `Speakers.WavFormLast` | server.py:147-151 | `speakers/<ref>.wav` is used when neither earlier path exists |
| `Speakers.UnmatchedNameIsSpeaker` | server.py:156-160 | a non-empty reference matching no file becomes the speaker name unchanged |
| `Speakers.AbsoluteReferenceCandidates` | server.py:141-151 | for an absolute reference, steps 2 and 3 try the reference itself and the reference plus `.wav` |
| `Speakers.EmptyReference` | server.py:129-163 | an empty reference resolves to the directory path `"speakers/"` when that exists, and to the error when neither `"speakers/"` nor `"speakers/.wav"` exists |
| `Speakers.ResolvesOnceDirectoryExists` | server.py:129-163 | once `speakers/` exists, as the `makedirs` call ensures, every reference resolves, so the "No speaker reference available" raise cannot happen |
| `Encode.MediaType` | server.py:196-199 | the media type starts with `audio/` and has no upper-case letter; it is `audio/mpeg` for the exact string `"mp3"` (case-sensitive) and otherwise the lower-cased `str` of the format |
| `Encode.MpegExactly` | server.py:196-199 | `audio/mpeg` arises exactly from the format `"mp3"` or a format that lower-cases to `"mpeg"` |
| `Encode.UpperCaseMp3` | server.py:196-199 | the `"mp3"` comparison is case-sensitive: `"MP3"` gives `audio/mp3` |
| `Encode.NullFormat` | server.py:196 | a `null` format goes through `str(...)` in `"audio/" + str(response_format).lower()` and gives `audio/none` |
| `Encode.LowerCaseFormatPassesThrough` | server.py:196-199 | any other lower-case format `f` gives `audio/` followed by `f` |
| `Pipeline.HandleRequest` | server.py:74-199 | up to the synthesis call, which is not modelled: a request is rejected exactly when decoding rejects it, with decoding's error (the missing or empty field, or the unknown model with the loaded names), and fails with the speaker error exactly when resolution fails; otherwise exactly one non-empty speaker argument is set (an existing file, or the decoded reference), the speaker arguments are those of `Resolve` on the decoded reference (an existing file first, in candidate order, else the name), the language is dropped for non-"multi" models, and the media type follows the format |
| `Pipeline.XttsKeepsLanguage` | server.py:165-166 | for the XTTS v2 model name `tts_models/multilingual/multi-dataset/xtts_v2`, every requested language is passed to synthesis unchanged |
| `Pipeline.VitsDropsLanguage` | server.py:165-166 | for the single-language model name `tts_models/en/vctk/vits`, every requested language is replaced by `None` |
| `Pipeline.BareName` | server.py:137-151 | a non-empty reference without a separator is not tried as a path; it is looked up only as `speakers/<ref>` and then `speakers/<ref>.wav` |
| `Pipeline.BareNameUnmatched` | server.py:156-160 | a non-empty reference without a separator, with neither `speakers/<ref>` nor `speakers/<ref>.wav` present, becomes the speaker name |
| `Pipeline.BareNameWav` | server.py:147-151 | a non-empty reference without a separator, with `speakers/<ref>` absent and `speakers/<ref>.wav` present, resolves to `speakers/<ref>.wav` |
| `Pipeline.ScenarioVoiceFile` | server.py:147-151 | for any "multi" model, voice `alice` with `speakers/alice.wav` present and `speakers/alice` absent resolves to that file, with language `en` and media type `audio/mpeg` |
| `Pipeline.ScenarioVoiceName` | server.py:156-160 | for any model, voice `bob` with neither `speakers/bob` nor `speakers/bob.wav` present is passed on as speaker `bob` |
| `Pipeline.ScenarioModelDefault` | server.py:99-103 | without a voice the model's default `"Craig Gutsy"` is used, ahead of a set `DEFAULT_VOICE`, and becomes a speaker name when no such file exists |
| `Pipeline.ScenarioEnvDefaultAndNoLanguage` | server.py:102-105 | a model with an empty default voice takes `DEFAULT_VOICE`, and a model without "multi" in its name gets no language even when `instructions` is given |
| `Pipeline.ScenarioUnknownModel` | server.py:82-86 | an unknown model is rejected, and the error lists the loaded model names |
| `Pipeline.ScenarioEmptyInput` | server.py:79-91 | empty text without a model is rejected for the model; with a model, for the input |
| `Pipeline.ScenarioEmptyVoice` | server.py:95-97 | an explicit empty voice resolves to the directory `speakers/` as the wav path whenever that directory exists |

## Left out

- Loading the config file, `json.load` and its parse errors (server.py:21-34): the model starts from the parsed document.
- Config items that are not JSON objects, and JSON values other than strings and `null` (numbers, booleans, arrays): only strings and `null` are modelled.
- `TTS(name).to(device)` and `tts.tts_to_file`: foreign neural-model calls. Load failures are not modelled, and synthesis is represented by the `SynthesisCall` record of its arguments.
- `self.default_model_name` (server.py:72): it is stored but never read by the request path.
- `os.getenv` reads: passed in as the `Env` record. `os.makedirs` and `os.path.exists`: replaced by the given set `fs` of existing paths.
- `uuid.uuid4()` output-path generation, `AudioSegment` transcoding, `io.BytesIO` and `os.remove` cleanup: randomness, codecs and filesystem side effects.
- The litserve wiring, `__main__`, CUDA detection and `print` logging.
- `test_client.py`: an HTTP client. Its payloads carry no `model`, so server.py:79-81 rejects each of them; its text sits in `instructions`, which the server reads as the language.
- Pipeline.HandleRequest: failures of `tts.tts_to_file` (server.py:171-177) and of `audio.export` (server.py:191), for example a format the codec does not know, are not modelled. `Ok` means the synthesis call and media type the server computes, not that the reply is sent.
- Text.Lower: covers ASCII letters only. Python's `str.lower` also lower-cases non-ASCII letters, which no media type the server produces in practice contains.
- Text.Join: POSIX path semantics only (`posixpath`). The Windows flavour of `os.path` is not modelled.
- ModelRegistry.Register: states that the insertion order has no repeated keys and the same elements as the map. It does not state that the order is exactly first-occurrence order, although the definition computes it that way.

=== FILE: decode.dfy ===
/** `decode_request` (server.py): validating an OpenAI-style request body and
    normalising it into the record handed to `predict`. */
module Decode {
  import opened Wrappers
  import opened Values
  import opened ModelRegistry

  /** The literal fallback of `os.getenv("DEFAULT_VOICE", ...)`. */
  const FallbackVoice: string := "Craig Gutsy"

  datatype DecodeError =
    | MissingModel                                          // `model` absent or null
    | ModelNotAvailable(requested: string, available: seq<Value>)  // lists the loaded names
    | MissingInput                                          // `input` absent, null or ""

  /** The dictionary `decode_request` returns. */
  datatype DecodedRequest = DecodedRequest(
    modelName: string,
    text: string,
    language: Value,
    speakerRef: string,
    responseFormat: Value)

  /** `os.getenv("DEFAULT_VOICE", "Craig Gutsy")`: a set variable wins even when empty. */
  function EnvVoice(env: Env): (v: string)
    ensures env.defaultVoice.Some? ==> v == env.defaultVoice.value
    ensures v == FallbackVoice <==> env.defaultVoice.None? || env.defaultVoice == Some(FallbackVoice)
  {
    match env.defaultVoice
    case Some(v) => v
    case None => FallbackVoice
  }

  /** The voice fallback chain: explicit request voice, then the model's
      truthy default, then the environment. */
  function ChooseVoice(request: Object, reg: Registry, env: Env, modelName: string): (v: string)
    ensures Get(request, "voice").Str? ==> v == Get(request, "voice").s
    ensures Get(request, "voice").Null? && Str(modelName) in reg.voices && Truthy(reg.voices[Str(modelName)]) ==>
      v == reg.voices[Str(modelName)].s
    ensures Get(request, "voice").Null? && !(Str(modelName) in reg.voices && Truthy(reg.voices[Str(modelName)])) ==>
      v == EnvVoice(env)
    // an empty reference comes only from an explicit empty voice or an empty DEFAULT_VOICE
    ensures v == "" ==> Get(request, "voice") == Str("") || env.defaultVoice == Some("")
  {
    match Get(request, "voice")
    case Str(v) => v
    case Null =>
      var modelDefault := if Str(modelName) in reg.voices then reg.voices[Str(modelName)] else Null;
      if Truthy(modelDefault) then modelDefault.s else EnvVoice(env)
  }

  /** The request is accepted by `decode_request`. */
  predicate Accepts(request: Object, reg: Registry) {
    && Get(request, "model").Str?
    && Str(Get(request, "model").s) in reg.voices
    && Get(request, "input").Str?
    && Get(request, "input").s != ""
  }

  function DecodeRequest(request: Object, reg: Registry, env: Env): (r: Result<DecodedRequest, DecodeError>)
    // rejections, in the order the checks run
    ensures r.Ok? <==> Accepts(request, reg)
    ensures r == Err(MissingModel) <==> Get(request, "model").Null?
    ensures r.Err? && r.error.ModelNotAvailable? <==>
      Get(request, "model").Str? && Str(Get(request, "model").s) !in reg.voices
    ensures r.Err? && r.error.ModelNotAvailable? ==>
      r.error.requested == Get(request, "model").s && r.error.available == reg.order
    ensures r == Err(MissingInput) <==>
      Get(request, "model").Str? && Str(Get(request, "model").s) in reg.voices
      && (Get(request, "input").Null? || Get(request, "input") == Str(""))
    // the accepted record
    ensures r.Ok? ==> Str(r.value.modelName) in reg.voices && Get(request, "model") == Str(r.value.modelName)
    ensures r.Ok? ==> r.value.text != "" && Get(request, "input") == Str(r.value.text)
    // voice priority
    ensures r.Ok? && Get(request, "voice").Str? ==> r.value.speakerRef == Get(request, "voice").s
    ensures r.Ok? && Get(request, "voice").Null? && Truthy(reg.voices[Str(r.value.modelName)]) ==>
      r.value.speakerRef == reg.voices[Str(r.value.modelName)].s
    ensures r.Ok? && Get(request, "voice").Null? && !Truthy(reg.voices[Str(r.value.modelName)]) ==>
      r.value.speakerRef == (if env.defaultVoice.Some? then env.defaultVoice.value else FallbackVoice)
    // defaults: only an absent key takes the default; an explicit null stays null
    ensures r.Ok? ==> r.value.language == (if "instructions" in request then request["instructions"] else Str("en"))
    ensures r.Ok? ==> r.value.responseFormat == (if "response_format" in request then request["response_format"] else Str("mp3"))
  {
    match Get(request, "model")
    case Null => Err(MissingModel)
    case Str(modelName) =>
      if Str(modelName) !in reg.voices then Err(ModelNotAvailable(modelName, reg.order))
      else
        match Get(request, "input")
        case Null => Err(MissingInput)
        case Str(text) =>
          if text == "" then Err(MissingInput)
          else Ok(DecodedRequest(
            modelName,
            text,
            GetOr(request, "instructions", Str("en")),
            ChooseVoice(request, reg, env, modelName),
            GetOr(request, "response_format", Str("mp3"))))
  }

  /** Two requests that agree on the five fields `decode_request` reads decode alike:
      no other field of the body influences the result. */
  lemma OnlyReadFieldsMatter(a: Object, b: Object, reg: Registry, env: Env)
    requires forall k | k in ["model", "input", "voice", "instructions", "response_format"] ::
      (k in a <==> k in b) && (k in a ==> a[k] == b[k])
    ensures DecodeRequest(a, reg, env) == DecodeRequest(b, reg, env)
  {
  }

  /** An explicit voice, even the empty string, is never replaced by a default. */
  lemma ExplicitEmptyVoiceKept(request: Object, reg: Registry, env: Env)
    requires Accepts(request, reg)
    requires "voice" in request && request["voice"] == Str("")
    ensures DecodeRequest(request, reg, env).value.speakerRef == ""
  {
  }

  /** With no voice, no truthy model default and `DEFAULT_VOICE` unset, the
      literal fallback speaker is used. */
  lemma FallbackWhenNothingConfigured(request: Object, reg: Registry)
    requires Accepts(request, reg)
    requires Get(request, "voice").Null?
    requires !Truthy(reg.voices[Str(request["model"].s)])
    ensures DecodeRequest(request, reg, Env(None, None)).value.speakerRef == "Craig Gutsy"
  {
  }
}

=== FILE: encode.dfy ===
/** The media type `encode_response` (server.py) puts on the reply; the
    transcoding itself is a foreign codec call and is not modelled. */
module Encode {
  import opened Values
  import opened Text

  const AudioPrefix: string := "audio/"

  /** `"audio/" + str(response_format).lower()`, overridden by `"audio/mpeg"`
      when the format is exactly the string "mp3". */
  function MediaType(format: Value): (m: string)
    ensures |m| >= |AudioPrefix| && m[..|AudioPrefix|] == AudioPrefix
    ensures format == Str("mp3") ==> m == "audio/mpeg"
    ensures format != Str("mp3") ==> m[|AudioPrefix|..] == Lower(PyStr(format))
    ensures forall i | 0 <= i < |m| :: !IsUpperAscii(m[i])
  {
    var mediaType := AudioPrefix + Lower(PyStr(format));
    if format == Str("mp3") then "audio/mpeg" else mediaType
  }

  /** "audio/mpeg" comes from the exact format "mp3", and also from any
      format that lower-cases to "mpeg"; nothing else yields it. */
  lemma MpegExactly(format: Value)
    ensures MediaType(format) == "audio/mpeg" <==> format == Str("mp3") || Lower(PyStr(format)) == "mpeg"
  {
    if format != Str("mp3") {
      var m := MediaType(format);
      assert m == AudioPrefix + Lower(PyStr(format));
      if m == "audio/mpeg" {
        assert m[|AudioPrefix|..] == "mpeg";
      }
    }
  }

  /** The "mp3" comparison is case-sensitive: "MP3" is only lower-cased. */
  lemma UpperCaseMp3()
    ensures MediaType(Str("MP3")) == "audio/mp3"
  {
    assert Lower("MP3") == "mp3";
  }

  /** An explicit `null` format is rendered through `str(None)`. */
  lemma NullFormat()
    ensures MediaType(Null) == "audio/none"
  {
    assert Lower("None") == "none";
  }

  /** Every other lower-case format passes through unchanged. */
  lemma LowerCaseFormatPassesThrough(f: string)
    requires f != "mp3"
    requires forall i | 0 <= i < |f| :: !IsUpperAscii(f[i])
    ensures MediaType(Str(f)) == AudioPrefix + f
  {
    LowerOfLowercase(f);
  }
}

=== FILE: pipeline.dfy ===
/** One request through the server: `decode_request`, then the speaker and
    language decisions of `predict`, then the media type of
    `encode_response` (all in server.py). Synthesis and transcoding are
    foreign calls; the result is the synthesis call the server would make
    and the media type of its reply. */
module Pipeline {
  import opened Wrappers
  import opened Values
  import opened Text
  import opened ModelRegistry
  import opened Decode
  import opened Speakers
  import opened Encode

  datatype RequestError = Rejected(reason: DecodeError) | Unresolved(failure: ResolveError)

  /** The keyword arguments of `tts.tts_to_file` that the server computes. */
  datatype SynthesisCall = SynthesisCall(
    modelName: string,
    text: string,
    language: Value,
    speakerWav: Option<string>,
    speaker: Option<string>)

  datatype Plan = Plan(call: SynthesisCall, mediaType: string)

  /** The `speaker_ref` the request decodes to. */
  function SpeakerRefOf(request: Object, reg: Registry, env: Env): string
    requires Accepts(request, reg)
  {
    DecodeRequest(request, reg, env).value.speakerRef
  }

  function HandleRequest(request: Object, reg: Registry, env: Env, fs: set<string>): (r: Result<Plan, RequestError>)
    ensures r.Err? && r.error.Rejected? <==> !Accepts(request, reg)
    ensures r.Err? && r.error.Rejected? ==> DecodeRequest(request, reg, env) == Err(r.error.reason)
    ensures r.Err? && r.error.Unresolved? <==>
      Accepts(request, reg) && Resolve(SpeakerRefOf(request, reg, env), fs).Err?
    ensures r.Ok? ==> Str(r.value.call.modelName) in reg.voices && Get(request, "model") == Str(r.value.call.modelName)
    ensures r.Ok? ==> r.value.call.text != "" && Get(request, "input") == Str(r.value.call.text)
    // exactly one of the two speaker arguments is set, and it is non-empty
    ensures r.Ok? ==> r.value.call.speakerWav.Some? != r.value.call.speaker.Some?
    ensures r.Ok? && r.value.call.speakerWav.Some? ==> r.value.call.speakerWav.value in fs && r.value.call.speakerWav.value != ""
    ensures r.Ok? && r.value.call.speaker.Some? ==> r.value.call.speaker.value == SpeakerRefOf(request, reg, env) && r.value.call.speaker.value != ""
    ensures r.Ok? && !IsSubstring("multi", r.value.call.modelName) ==> r.value.call.language == Null
    ensures r.Ok? && IsSubstring("multi", r.value.call.modelName) ==> r.value.call.language == GetOr(request, "instructions", Str("en"))
    ensures r.Ok? ==> r.value.mediaType == MediaType(GetOr(request, "response_format", Str("mp3")))
    // the speaker arguments are those of resolving the decoded reference: file first, first match
    ensures r.Ok? ==>
      && Resolve(SpeakerRefOf(request, reg, env), fs).Ok?
      && (r.value.call.speakerWav, r.value.call.speaker) == SpeakerArgs(Resolve(SpeakerRefOf(request, reg, env), fs).value)
  {
    match DecodeRequest(request, reg, env)
    case Err(e) => Err(Rejected(e))
    case Ok(d) =>
      match Resolve(d.speakerRef, fs)
      case Err(e) => Err(Unresolved(e))
      case Ok(s) =>
        var args := SpeakerArgs(s);
        Ok(Plan(
          SynthesisCall(d.modelName, d.text, SynthesisLanguage(d.modelName, d.language), args.0, args.1),
          MediaType(d.responseFormat)))
  }

  // Example requests: a registry holding one model with the given default voice,
  // and a filesystem constrained only on the paths each example names.

  function OneModel(model: string, defaultVoice: string): Registry {
    Registry([Str(model)], map[Str(model) := Str(defaultVoice)])
  }

  /** The XTTS v2 model keeps the requested language: its name contains "multi". */
  lemma {:induction false} XttsKeepsLanguage(language: Value)
    ensures SynthesisLanguage("tts_models/multilingual/multi-dataset/xtts_v2", language) == language
  {
    var m := "tts_models/multilingual/multi-dataset/xtts_v2";
    assert m[11] == 'm' && m[12] == 'u' && m[13] == 'l' && m[14] == 't' && m[15] == 'i';
    assert OccursAt("multi", m, 11);
  }

  /** A single-language VITS model drops the language: its name has no "multi". */
  lemma {:induction false} VitsDropsLanguage(language: Value)
    ensures SynthesisLanguage("tts_models/en/vctk/vits", language) == Null
  {
    assert 'u' !in "tts_models/en/vctk/vits";
    NotSubstringByMissingChar("multi", "tts_models/en/vctk/vits", 1);
  }

  /** A non-empty reference without a separator is looked up only inside the sample directory. */
  lemma BareName(name: string)
    requires name != "" && Sep !in name
    ensures !LooksLikePath(name)
    ensures Join(SpeakersDir, name) == SpeakersDir + "/" + name
    ensures Join(SpeakersDir, name + ".wav") == SpeakersDir + "/" + name + ".wav"
    ensures Candidates(name) == [SpeakersDir + "/" + name, SpeakersDir + "/" + name + ".wav"]
  {
    assert name[0] in name;
    assert (name + ".wav")[0] == name[0];
    assert SpeakersDir[|SpeakersDir| - 1] == 's';
    assert SpeakersDir + [Sep] + name == SpeakersDir + "/" + name;
    assert SpeakersDir + [Sep] + (name + ".wav") == SpeakersDir + "/" + name + ".wav";
  }

  /** A bare name with neither sample present is passed on as a speaker name. */
  lemma BareNameUnmatched(name: string, fs: set<string>)
    requires name != "" && Sep !in name
    requires SpeakersDir + "/" + name !in fs && SpeakersDir + "/" + name + ".wav" !in fs
    ensures Resolve(name, fs) == Ok(NamedSpeaker(name))
  {
    BareName(name);
    UnmatchedNameIsSpeaker(name, fs);
  }

  /** A bare name whose ".wav" sample is present resolves to that sample. */
  lemma BareNameWav(name: string, fs: set<string>)
    requires name != "" && Sep !in name
    requires SpeakersDir + "/" + name !in fs && SpeakersDir + "/" + name + ".wav" in fs
    ensures Resolve(name, fs) == Ok(FileReference(SpeakersDir + "/" + name + ".wav"))
  {
    BareName(name);
    WavFormLast(name, fs);
  }

  /** A voice naming a sample in the directory resolves to its ".wav" file. */
  lemma ScenarioVoiceFile(model: string, fs: set<string>)
    requires IsSubstring("multi", model)
    requires "speakers/alice" !in fs && "speakers/alice.wav" in fs
    ensures
      var r := HandleRequest(map["model" := Str(model), "input" := Str("Hello"), "voice" := Str("alice")],
                             OneModel(model, "Craig Gutsy"), Env(None, None), fs);
      && r.Ok?
      && r.value.call.speakerWav == Some("speakers/alice.wav")
      && r.value.call.speaker == None
      && r.value.call.language == Str("en")
      && r.value.mediaType == "audio/mpeg"
  {
    var request := map["model" := Str(model), "input" := Str("Hello"), "voice" := Str("alice")];
    assert DecodeRequest(request, OneModel(model, "Craig Gutsy"), Env(None, None))
        == Ok(DecodedRequest(model, "Hello", Str("en"), "alice", Str("mp3")));
    assert Sep !in "alice";
    assert SpeakersDir + "/" + "alice" == "speakers/alice";
    assert SpeakersDir + "/" + "alice" + ".wav" == "speakers/alice.wav";
    BareNameWav("alice", fs);
  }

  /** A voice matching no file is passed on as a built-in speaker name. */
  lemma ScenarioVoiceName(model: string, fs: set<string>)
    requires "speakers/bob" !in fs && "speakers/bob.wav" !in fs
    ensures
      var r := HandleRequest(map["model" := Str(model), "input" := Str("Hello"), "voice" := Str("bob")],
                             OneModel(model, "Craig Gutsy"), Env(None, None), fs);
      r.Ok? && r.value.call.speakerWav == None && r.value.call.speaker == Some("bob")
  {
    var request := map["model" := Str(model), "input" := Str("Hello"), "voice" := Str("bob")];
    assert DecodeRequest(request, OneModel(model, "Craig Gutsy"), Env(None, None))
        == Ok(DecodedRequest(model, "Hello", Str("en"), "bob", Str("mp3")));
    assert Sep !in "bob";
    assert SpeakersDir + "/" + "bob" == "speakers/bob";
    assert SpeakersDir + "/" + "bob" + ".wav" == "speakers/bob.wav";
    BareNameUnmatched("bob", fs);
  }

  /** The body without a voice decodes to the model's default voice. */
  lemma ModelDefaultDecodes(model: string)
    ensures DecodeRequest(map["model" := Str(model), "input" := Str("Hello")],
                          OneModel(model, "Craig Gutsy"), Env(None, Some("Ana Florence")))
         == Ok(DecodedRequest(model, "Hello", Str("en"), "Craig Gutsy", Str("mp3")))
  {
    assert Get(map["model" := Str(model), "input" := Str("Hello")], "voice") == Null;
  }

  /** Without a voice the model's default voice is used, ahead of `DEFAULT_VOICE`. */
  lemma ScenarioModelDefault(model: string, fs: set<string>)
    requires "speakers/Craig Gutsy" !in fs && "speakers/Craig Gutsy.wav" !in fs
    ensures
      var r := HandleRequest(map["model" := Str(model), "input" := Str("Hello")],
                             OneModel(model, "Craig Gutsy"), Env(None, Some("Ana Florence")), fs);
      r.Ok? && r.value.call.speakerWav == None && r.value.call.speaker == Some("Craig Gutsy")
  {
    ModelDefaultDecodes(model);
    assert Sep !in "Craig Gutsy";
    assert SpeakersDir + "/" + "Craig Gutsy" == "speakers/Craig Gutsy";
    assert SpeakersDir + "/" + "Craig Gutsy" + ".wav" == "speakers/Craig Gutsy.wav";
    BareNameUnmatched("Craig Gutsy", fs);
  }

  /** The body without a voice, for a model whose default voice is empty, decodes to `DEFAULT_VOICE`. */
  lemma EnvDefaultDecodes(model: string)
    ensures DecodeRequest(map["model" := Str(model), "input" := Str("Hello"), "instructions" := Str("fr")],
                          OneModel(model, ""), Env(None, Some("p225")))
         == Ok(DecodedRequest(model, "Hello", Str("fr"), "p225", Str("mp3")))
  {
    assert Get(map["model" := Str(model), "input" := Str("Hello"), "instructions" := Str("fr")], "voice") == Null;
  }

  /** A model whose default voice is empty falls back to `DEFAULT_VOICE`, and
      a model without "multi" in its name gets no language. */
  lemma ScenarioEnvDefaultAndNoLanguage(model: string, fs: set<string>)
    requires !IsSubstring("multi", model)
    requires "speakers/p225" !in fs && "speakers/p225.wav" !in fs
    ensures
      var r := HandleRequest(map["model" := Str(model), "input" := Str("Hello"), "instructions" := Str("fr")],
                             OneModel(model, ""), Env(None, Some("p225")), fs);
      r.Ok? && r.value.call.speaker == Some("p225") && r.value.call.language == Null
  {
    EnvDefaultDecodes(model);
    assert Sep !in "p225";
    assert SpeakersDir + "/" + "p225" == "speakers/p225";
    assert SpeakersDir + "/" + "p225" + ".wav" == "speakers/p225.wav";
    BareNameUnmatched("p225", fs);
  }

  /** An unknown model is rejected with the list of loaded model names. */
  lemma ScenarioUnknownModel(model: string, fs: set<string>)
    requires model != "unknown-model"
    ensures HandleRequest(map["model" := Str("unknown-model"), "input" := Str("Hello")],
                          OneModel(model, "Craig Gutsy"), Env(None, None), fs)
            == Err(Rejected(ModelNotAvailable("unknown-model", [Str(model)])))
  {
  }

  /** Empty text is rejected, after the model check. */
  lemma ScenarioEmptyInput(model: string, fs: set<string>)
    ensures HandleRequest(map["input" := Str("")], OneModel(model, "Craig Gutsy"), Env(None, None), fs)
            == Err(Rejected(MissingModel))
    ensures HandleRequest(map["model" := Str(model), "input" := Str("")], OneModel(model, "Craig Gutsy"), Env(None, None), fs)
            == Err(Rejected(MissingInput))
  {
  }

  /** An explicit empty voice resolves to the speaker directory itself, which exists. */
  lemma ScenarioEmptyVoice(model: string, fs: set<string>)
    requires "speakers/" in fs
    ensures
      var r := HandleRequest(map["model" := Str(model), "input" := Str("Hello"), "voice" := Str("")],
                             OneModel(model, "Craig Gutsy"), Env(None, None), fs);
      r.Ok? && r.value.call.speakerWav == Some("speakers/")
  {
    var request := map["model" := Str(model), "input" := Str("Hello"), "voice" := Str("")];
    assert DecodeRequest(request, OneModel(model, "Craig Gutsy"), Env(None, None))
        == Ok(DecodedRequest(model, "Hello", Str("en"), "", Str("mp3")));
    EmptyReference(fs);
  }
}

=== FILE: registry.dfy ===
/** Start-up assembly of the model registry (`setup`, server.py): from the
    already-parsed config document and the environment, the map from each
    model name to its default voice. Loading the synthesis model itself is a
    foreign call and is not modelled; the loaded-model map and the
    default-voice map are filled in the same loop, so they have the same keys
    and the registry below stands for both. */
module ModelRegistry {
  import opened Wrappers
  import opened Values

  /** The environment variables `DEFAULT_TTS_MODEL_NAME` and `DEFAULT_VOICE`
      (`None` when unset). */
  datatype Env = Env(defaultModelName: Option<string>, defaultVoice: Option<string>)

  /** The parsed config file: a JSON array of objects, or some other JSON value. */
  datatype ConfigDoc = ConfigArray(items: seq<Object>) | NotAnArray

  /** One `{"model_name", "default_voice"}` record of `model_configs`. */
  datatype ModelConfig = ModelConfig(name: Value, defaultVoice: Value)

  datatype SetupError =
    | ConfigInvalid                       // not a list, or an empty list
    | MissingKey(index: nat, key: string) // `item[key]` raised KeyError

  /** A Python dict from model name to default voice: `order` is the key
      insertion order (what `list(d.keys())` shows), `voices` the contents. */
  datatype Registry = Registry(order: seq<Value>, voices: map<Value, Value>) {
    ghost predicate Valid() {
      && (forall i, j | 0 <= i < j < |order| :: order[i] != order[j])
      && (forall k :: k in voices <==> k in order)
    }
  }

  function NameSet(cs: seq<ModelConfig>): set<Value> {
    set i | 0 <= i < |cs| :: cs[i].name
  }

  /** Entry `i` is the last one in `cs` carrying its name. */
  ghost predicate LastOccurrence(cs: seq<ModelConfig>, i: int) {
    0 <= i < |cs| && forall j | i < j < |cs| :: cs[j].name != cs[i].name
  }

  /** `d[name] = voice`: a new key goes to the end of the order, an existing
      key keeps its place and takes the new value. */
  function Insert(reg: Registry, name: Value, voice: Value): (r: Registry)
    ensures r.voices.Keys == reg.voices.Keys + {name} && r.voices[name] == voice
    ensures forall k | k in reg.voices && k != name :: r.voices[k] == reg.voices[k]
    ensures name in reg.voices ==> r.order == reg.order
    ensures name !in reg.voices ==> r.order == reg.order + [name]
    ensures reg.Valid() ==> r.Valid()
  {
    Registry(if name in reg.voices then reg.order else reg.order + [name],
             reg.voices[name := voice])
  }

  /** The registration loop over `model_configs`. */
  function Register(cs: seq<ModelConfig>): (r: Registry)
    ensures r.Valid()
    ensures r.voices.Keys == NameSet(cs)
    ensures forall i | LastOccurrence(cs, i) :: cs[i].name in r.voices && r.voices[cs[i].name] == cs[i].defaultVoice
  {
    if cs == [] then Registry([], map[])
    else
      var prev := Register(cs[..|cs| - 1]);
      RegisterStep(cs, prev);
      Insert(prev, cs[|cs| - 1].name, cs[|cs| - 1].defaultVoice)
  }

  /** One iteration of the registration loop keeps the registry's contract. */
  lemma RegisterStep(cs: seq<ModelConfig>, prev: Registry)
    requires cs != []
    requires prev.Valid()
    requires prev.voices.Keys == NameSet(cs[..|cs| - 1])
    requires forall i | LastOccurrence(cs[..|cs| - 1], i) :: prev.voices[cs[i].name] == cs[i].defaultVoice
    ensures var r := Insert(prev, cs[|cs| - 1].name, cs[|cs| - 1].defaultVoice);
      && r.Valid()
      && r.voices.Keys == NameSet(cs)
      && forall i | LastOccurrence(cs, i) :: cs[i].name in r.voices && r.voices[cs[i].name] == cs[i].defaultVoice
  {
    var prefix := cs[..|cs| - 1];
    var last := cs[|cs| - 1];
    var r := Insert(prev, last.name, last.defaultVoice);
    assert forall i | 0 <= i < |prefix| :: prefix[i] == cs[i];
    assert NameSet(cs) == NameSet(prefix) + {last.name} by {
      forall k | k in NameSet(cs) ensures k in NameSet(prefix) + {last.name} {
        var i :| 0 <= i < |cs| && cs[i].name == k;
        if i < |prefix| { assert prefix[i].name == k; }
      }
    }
    forall i | LastOccurrence(cs, i)
      ensures cs[i].name in r.voices && r.voices[cs[i].name] == cs[i].defaultVoice
    {
      if i < |cs| - 1 {
        assert cs[i].name != last.name;
        assert LastOccurrence(prefix, i);
      }
    }
  }

  /** Both keys the loop in `setup` reads are present. */
  predicate WellFormed(item: Object) {
    "model_name" in item && "default_voice" in item
  }

  function ToConfig(item: Object): ModelConfig
    requires WellFormed(item)
  {
    ModelConfig(item["model_name"], item["default_voice"])
  }

  /** The KeyError raised for a malformed item: `model_name` is read first. */
  function MissingKeyOf(item: Object, index: nat): SetupError {
    MissingKey(index, if "model_name" !in item then "model_name" else "default_voice")
  }

  /** The `for idx, item in enumerate(raw_models)` loop that copies each item's
      two fields, stopping at the first item missing one. */
  method ParseEntries(items: seq<Object>) returns (r: Result<seq<ModelConfig>, SetupError>)
    ensures r.Ok? <==> forall i | 0 <= i < |items| :: WellFormed(items[i])
    ensures r.Ok? ==> |r.value| == |items| && forall i | 0 <= i < |items| :: WellFormed(items[i]) && r.value[i] == ToConfig(items[i])
    ensures r.Err? ==> exists i | 0 <= i < |items| :: !WellFormed(items[i]) && r.error == MissingKeyOf(items[i], i) && forall j | 0 <= j < i :: WellFormed(items[j])
  {
    var configs: seq<ModelConfig> := [];
    var idx := 0;
    while idx < |items|
      invariant 0 <= idx <= |items|
      invariant |configs| == idx
      invariant forall i | 0 <= i < idx :: WellFormed(items[i]) && configs[i] == ToConfig(items[i])
    {
      var item := items[idx];
      if !WellFormed(item) {
        return Err(MissingKeyOf(item, idx));
      }
      configs := configs + [ToConfig(item)];
      idx := idx + 1;
    }
    return Ok(configs);
  }

  /** `DEFAULT_TTS_MODEL_NAME` is set, non-empty and not among the configured names. */
  predicate AddsEnvModel(cs: seq<ModelConfig>, env: Env)
    ensures AddsEnvModel(cs, env) <==>
      && env.defaultModelName.Some?
      && Truthy(Str(env.defaultModelName.value))
      && forall i | 0 <= i < |cs| :: cs[i].name != Str(env.defaultModelName.value)
  {
    env.defaultModelName.Some? && env.defaultModelName.value != "" && Str(env.defaultModelName.value) !in NameSet(cs)
  }

  /** Appending the environment's default model, paired with `DEFAULT_VOICE`. */
  function WithEnvDefault(cs: seq<ModelConfig>, env: Env): (r: seq<ModelConfig>)
    ensures AddsEnvModel(cs, env) ==> |r| == |cs| + 1 && r[..|cs|] == cs
    ensures AddsEnvModel(cs, env) ==> r[|cs|].name == Str(env.defaultModelName.value) && r[|cs|].defaultVoice == FromOption(env.defaultVoice)
    ensures !AddsEnvModel(cs, env) ==> r == cs
  {
    if AddsEnvModel(cs, env)
    then cs + [ModelConfig(Str(env.defaultModelName.value), FromOption(env.defaultVoice))]
    else cs
  }

  /** The configured names of a fully well-formed item list. */
  ghost function ConfigsOf(items: seq<Object>): (cs: seq<ModelConfig>)
    requires forall i | 0 <= i < |items| :: WellFormed(items[i])
  {
    seq(|items|, i requires 0 <= i < |items| => ToConfig(items[i]))
  }

  /** Appending an entry with a fresh name adds that name and keeps every
      earlier last occurrence a last occurrence. */
  lemma AppendFreshName(cs: seq<ModelConfig>, c: ModelConfig)
    requires c.name !in NameSet(cs)
    ensures NameSet(cs + [c]) == NameSet(cs) + {c.name}
    ensures forall i | LastOccurrence(cs, i) :: LastOccurrence(cs + [c], i)
    ensures LastOccurrence(cs + [c], |cs|)
  {
    var all := cs + [c];
    assert forall i | 0 <= i < |cs| :: all[i] == cs[i];
    assert all[|cs|] == c;
    forall k | k in NameSet(all) ensures k in NameSet(cs) + {c.name} {
      var i :| 0 <= i < |all| && all[i].name == k;
    }
    forall i | LastOccurrence(cs, i) ensures LastOccurrence(all, i) {
      assert cs[i].name in NameSet(cs);
    }
  }

  /** The registry built from the configured entries plus the environment's
      default model: its keys, and the voice each key ends up with. */
  lemma RegisterWithEnvDefault(cs: seq<ModelConfig>, env: Env)
    ensures var reg := Register(WithEnvDefault(cs, env));
      && reg.voices.Keys == NameSet(cs) + (if AddsEnvModel(cs, env) then {Str(env.defaultModelName.value)} else {})
      && (forall i | LastOccurrence(cs, i) :: reg.voices[cs[i].name] == cs[i].defaultVoice)
      && (AddsEnvModel(cs, env) ==> reg.voices[Str(env.defaultModelName.value)] == FromOption(env.defaultVoice))
  {
    if AddsEnvModel(cs, env) {
      var c := ModelConfig(Str(env.defaultModelName.value), FromOption(env.defaultVoice));
      assert WithEnvDefault(cs, env) == cs + [c];
      AppendFreshName(cs, c);
      assert (cs + [c])[|cs|] == c;
    }
  }

  /** `setup` from the point where the config has been parsed. */
  method Setup(doc: ConfigDoc, env: Env) returns (r: Result<Registry, SetupError>)
    ensures r == Err(ConfigInvalid) <==> doc.NotAnArray? || doc.items == []
    ensures r.Ok? <==> doc.ConfigArray? && doc.items != [] && forall i | 0 <= i < |doc.items| :: WellFormed(doc.items[i])
    ensures r.Err? && r.error.MissingKey? ==>
      exists i | 0 <= i < |doc.items| :: !WellFormed(doc.items[i]) && r.error == MissingKeyOf(doc.items[i], i) && forall j | 0 <= j < i :: WellFormed(doc.items[j])
    ensures r.Ok? ==> r.value.Valid()
    ensures r.Ok? ==>
      var cs := ConfigsOf(doc.items);
      && r.value.voices.Keys == NameSet(cs) + (if AddsEnvModel(cs, env) then {Str(env.defaultModelName.value)} else {})
      && (forall i | LastOccurrence(cs, i) :: r.value.voices[cs[i].name] == cs[i].defaultVoice)
      && (AddsEnvModel(cs, env) ==> r.value.voices[Str(env.defaultModelName.value)] == FromOption(env.defaultVoice))
  {
    if doc.NotAnArray? || doc.items == [] {
      return Err(ConfigInvalid);
    }
    var parsed := ParseEntries(doc.items);
    if parsed.Err? {
      return Err(parsed.error);
    }
    var cs := parsed.value;
    assert cs == ConfigsOf(doc.items);
    RegisterWithEnvDefault(cs, env);
    return Ok(Register(WithEnvDefault(cs, env)));
  }
}

=== FILE: speakers.dfy ===
/** The speaker-resolution and language-forcing part of `predict`
    (server.py): turning `speaker_ref` into either a reference wav path or a
    built-in speaker name, with the filesystem `fs` given as the set of paths for
    which `os.path.exists` holds. */
module Speakers {
  import opened Wrappers
  import opened Values
  import opened Text

  /** The speaker-sample directory. */
  const SpeakersDir: string := "speakers"

  /** What is handed to synthesis as the voice: a sample to clone or a name
      from the model's built-in speaker table. */
  datatype SpeakerRef = FileReference(path: string) | NamedSpeaker(name: string)

  datatype ResolveError = NoSpeakerReference

  /** Priority 1 applies only to a reference that is absolute or contains a separator. */
  predicate LooksLikePath(ref: string)
    ensures LooksLikePath(ref) <==> Sep in ref
  {
    IsAbs(ref) || Sep in ref
  }

  /** The paths tried, in priority order. */
  function Candidates(ref: string): (cs: seq<string>)
    ensures |cs| == if LooksLikePath(ref) then 3 else 2
    ensures LooksLikePath(ref) ==> cs[0] == ref
    ensures cs[|cs| - 2] == Join(SpeakersDir, ref) && cs[|cs| - 1] == Join(SpeakersDir, ref + ".wav")
    ensures forall j | 0 <= j < |cs| :: cs[j] != ""
  {
    (if LooksLikePath(ref) then [ref] else [])
    + [Join(SpeakersDir, ref), Join(SpeakersDir, ref + ".wav")]
  }

  /** The position of the first candidate that exists: first match wins. */
  function FirstExisting(cands: seq<string>, fs: set<string>): (k: Option<nat>)
    ensures k.Some? ==> k.value < |cands| && cands[k.value] in fs
    ensures k.Some? ==> forall j | 0 <= j < k.value :: cands[j] !in fs
    ensures k.None? ==> forall j | 0 <= j < |cands| :: cands[j] !in fs
  {
    if cands == [] then None
    else if cands[0] in fs then Some(0)
    else
      match FirstExisting(cands[1..], fs)
      case None => None
      case Some(k) => Some(k + 1)
  }

  /** The three guarded assignments to `speaker_wav`, each tried only while
      it is still `None`. */
  function ResolveWav(ref: string, fs: set<string>): (w: Option<string>)
    ensures var cs := Candidates(ref);
      match FirstExisting(cs, fs)
      case None => w.None?
      case Some(k) => w == Some(cs[k])
  {
    var w1 := if LooksLikePath(ref) && ref in fs then Some(ref) else None;
    var byName := Join(SpeakersDir, ref);
    var w2 := if w1.None? && byName in fs then Some(byName) else w1;
    var byWav := Join(SpeakersDir, ref + ".wav");
    var cs := Candidates(ref);
    assert cs == (if LooksLikePath(ref) then [ref] else []) + [byName, byWav];
    assert cs[|cs| - 2] == byName && cs[|cs| - 1] == byWav;
    assert LooksLikePath(ref) ==> cs[0] == ref;
    if w2.None? && byWav in fs then Some(byWav) else w2
  }

  /** Resolution: a found file wins; otherwise the reference is a speaker
      name; an empty name with no file is the "No speaker reference
      available" error. */
  function Resolve(ref: string, fs: set<string>): (r: Result<SpeakerRef, ResolveError>)
    ensures r.Ok? && r.value.FileReference? ==>
      var cs := Candidates(ref);
      exists k | 0 <= k < |cs| :: r.value.path == cs[k] && cs[k] in fs && forall j | 0 <= j < k :: cs[j] !in fs
    ensures r.Ok? && r.value.FileReference? ==> r.value.path != ""
    ensures r.Ok? && r.value.NamedSpeaker? <==>
      ref != "" && forall j | 0 <= j < |Candidates(ref)| :: Candidates(ref)[j] !in fs
    ensures r.Ok? && r.value.NamedSpeaker? ==> r.value.name == ref
    ensures r.Err? <==> ref == "" && forall j | 0 <= j < |Candidates(ref)| :: Candidates(ref)[j] !in fs
  {
    var wav := ResolveWav(ref, fs);
    if wav.Some? && wav.value != "" then Ok(FileReference(wav.value))
    else if ref != "" then Ok(NamedSpeaker(ref))
    else Err(NoSpeakerReference)
  }

  /** The `speaker_wav` and `speaker` keyword arguments of the synthesis call. */
  function SpeakerArgs(s: SpeakerRef): (args: (Option<string>, Option<string>))
    ensures args.0.Some? != args.1.Some?
    ensures s.FileReference? ==> args.0 == Some(s.path)
    ensures s.NamedSpeaker? ==> args.1 == Some(s.name)
  {
    match s
    case FileReference(p) => (Some(p), None)
    case NamedSpeaker(n) => (None, Some(n))
  }

  /** `language` reaches synthesis only for models whose name contains "multi". */
  function SynthesisLanguage(modelName: string, language: Value): (l: Value)
    ensures !IsSubstring("multi", modelName) ==> l == Null
    ensures IsSubstring("multi", modelName) ==> l == language
  {
    if Contains(modelName, "multi") then language else Null
  }

  /** Priority 1: an existing path-like reference is used as it is. */
  lemma PathLikeReferenceWins(ref: string, fs: set<string>)
    requires LooksLikePath(ref) && ref in fs
    ensures Resolve(ref, fs) == Ok(FileReference(ref))
  {
    assert FirstExisting(Candidates(ref), fs) == Some(0);
  }

  /** Priority 2 before 3: an exact file name in the sample directory beats the ".wav" form. */
  lemma ExactNameBeforeWav(ref: string, fs: set<string>)
    requires !(LooksLikePath(ref) && ref in fs)
    requires Join(SpeakersDir, ref) in fs
    ensures Resolve(ref, fs) == Ok(FileReference(Join(SpeakersDir, ref)))
  {
  }

  /** Priority 3: the ".wav" form is used when nothing earlier exists. */
  lemma WavFormLast(ref: string, fs: set<string>)
    requires !(LooksLikePath(ref) && ref in fs)
    requires Join(SpeakersDir, ref) !in fs
    requires Join(SpeakersDir, ref + ".wav") in fs
    ensures Resolve(ref, fs) == Ok(FileReference(Join(SpeakersDir, ref + ".wav")))
  {
  }

  /** A bare name with neither file present is passed through unchanged as a speaker name. */
  lemma UnmatchedNameIsSpeaker(ref: string, fs: set<string>)
    requires ref != ""
    requires !(LooksLikePath(ref) && ref in fs)
    requires Join(SpeakersDir, ref) !in fs && Join(SpeakersDir, ref + ".wav") !in fs
    ensures Resolve(ref, fs) == Ok(NamedSpeaker(ref))
  {
  }

  /** For an absolute reference, joining onto the sample directory yields the
      reference itself, so steps 2 and 3 try `ref` and `ref + ".wav"`. */
  lemma {:induction false} AbsoluteReferenceCandidates(ref: string)
    requires IsAbs(ref)
    ensures Candidates(ref) == [ref, ref, ref + ".wav"]
  {
    assert (ref + ".wav")[0] == ref[0];
  }

  /** An empty reference joins to the directory path "speakers/"; whether
      that exists decides between a file reference and the error. */
  lemma EmptyReference(fs: set<string>)
    ensures "speakers/" in fs ==> Resolve("", fs) == Ok(FileReference("speakers/"))
    ensures "speakers/" !in fs && "speakers/.wav" !in fs ==> Resolve("", fs) == Err(NoSpeakerReference)
  {
    assert Join(SpeakersDir, "") == "speakers/";
    assert Join(SpeakersDir, "" + ".wav") == "speakers/.wav";
  }

  /** Once the sample directory exists, as `predict` ensures by creating it
      before resolving, no reference fails to resolve. */
  lemma ResolvesOnceDirectoryExists(ref: string, fs: set<string>)
    requires "speakers/" in fs
    ensures Resolve(ref, fs).Ok?
  {
    if ref == "" {
      EmptyReference(fs);
    }
  }
}

=== FILE: text.dfy ===
/** The string primitives the server relies on: substring membership
    (`t in s`), ASCII lower-casing (`s.lower()`) and POSIX path handling
    (`os.path.isabs`, `os.path.sep`, `os.path.join`). */
module Text {

  /** `t` occurs in `s` starting at position `i`. */
  ghost predicate OccursAt(t: string, s: string, i: int) {
    0 <= i <= |s| - |t| && s[i..i + |t|] == t
  }

  /** `t` occurs in `s` at some position. */
  ghost predicate IsSubstring(t: string, s: string) {
    exists i :: OccursAt(t, s, i)
  }

  /** Python's `t in s` for strings, by scanning start positions left to right. */
  function Contains(s: string, t: string): (b: bool)
    ensures b <==> IsSubstring(t, s)
    decreases |s|
  {
    if |s| < |t| then false
    else if s[..|t|] == t then (assert OccursAt(t, s, 0); true)
    else (
      SubstringOfTail(s, t);
      Contains(s[1..], t)
    )
  }

  /** When `t` is not a prefix of `s`, `t` occurs in `s` exactly when it occurs in `s[1..]`. */
  lemma SubstringOfTail(s: string, t: string)
    requires |t| <= |s| && s[..|t|] != t
    ensures IsSubstring(t, s) <==> IsSubstring(t, s[1..])
  {
    if IsSubstring(t, s) {
      var i :| OccursAt(t, s, i);
      assert i != 0 by { assert s[..|t|] == s[0..0 + |t|]; }
      assert s[1..][i - 1..i - 1 + |t|] == s[i..i + |t|];
      assert OccursAt(t, s[1..], i - 1);
    }
    if IsSubstring(t, s[1..]) {
      var i :| OccursAt(t, s[1..], i);
      assert s[i + 1..i + 1 + |t|] == s[1..][i..i + |t|];
      assert OccursAt(t, s, i + 1);
    }
  }

  /** `t` is not in `s` when some character of `t` never appears in `s`. */
  lemma NotSubstringByMissingChar(t: string, s: string, k: nat)
    requires k < |t| && t[k] !in s
    ensures !IsSubstring(t, s)
  {
  }

  /** `c.lower()` for ASCII letters; every other character is left alone. */
  function LowerChar(c: char): char {
    if 'A' <= c <= 'Z' then (c as int - 'A' as int + 'a' as int) as char else c
  }

  predicate IsUpperAscii(c: char) {
    'A' <= c <= 'Z'
  }

  /** `s.lower()`, character by character. */
  function Lower(s: string): (r: string)
    ensures |r| == |s|
    ensures forall i | 0 <= i < |s| :: r[i] == LowerChar(s[i])
    ensures forall i | 0 <= i < |r| :: !IsUpperAscii(r[i])
  {
    if s == [] then [] else [LowerChar(s[0])] + Lower(s[1..])
  }

  /** A string without upper-case ASCII letters is its own lower-case form. */
  lemma LowerOfLowercase(s: string)
    requires forall i | 0 <= i < |s| :: !IsUpperAscii(s[i])
    ensures Lower(s) == s
  {
  }

  const Sep: char := '/'

  /** `posixpath.isabs`. */
  predicate IsAbs(p: string) {
    |p| > 0 && p[0] == Sep
  }

  /** Two-argument `posixpath.join`: an absolute second component replaces the
      first; otherwise a separator is inserted unless the first is empty or
      already ends with one. */
  function Join(a: string, b: string): (r: string)
    ensures |b| <= |r| && r[|r| - |b|..] == b
    ensures a != "" || b != "" ==> r != ""
    ensures !IsAbs(b) ==> |a| <= |r| && r[..|a|] == a
  {
    if IsAbs(b) then b
    else if a == [] || a[|a| - 1] == Sep then a + b
    else a + [Sep] + b
  }
}

=== FILE: values.dfy ===
/** JSON values as the server sees them after the HTTP layer has decoded the body.
    Only strings and `null` are modelled; a request body and a config entry are
    JSON objects, i.e. maps from field name to value. */
module Values {
  import opened Wrappers

  datatype Value = Null | Str(s: string)

  type Object = map<string, Value>

  /** `obj.get(key)`: an absent key and an explicit `null` both read as `None`. */
  function Get(obj: Object, key: string): (v: Value)
    ensures v == Null <==> key !in obj || obj[key] == Null
    ensures v.Str? ==> key in obj && obj[key] == v
  {
    if key in obj then obj[key] else Null
  }

  /** `obj.get(key, default)`: the default is used only when the key is absent,
      so an explicit `null` still reads as `None`. */
  function GetOr(obj: Object, key: string, default: Value): (v: Value)
    ensures key in obj ==> v == Get(obj, key)
    ensures key !in obj ==> v == default
  {
    if key in obj then obj[key] else default
  }

  /** Python truthiness of a string-or-None: `None` and `""` are the falsy values. */
  predicate Truthy(v: Value)
    ensures Truthy(v) <==> v != Null && v != Str("")
  {
    v.Str? && v.s != ""
  }

  /** An optional environment variable as a Python value. */
  function FromOption(o: Option<string>): Value {
    match o
    case None => Null
    case Some(s) => Str(s)
  }

  /** `str(v)`: a string is itself and `None` prints as "None", so the two
      cannot be told apart afterwards. */
  function PyStr(v: Value): (r: string)
    ensures v.Str? ==> r == v.s
    ensures r == "None" <==> v == Null || v == Str("None")
  {
    match v
    case Null => "None"
    case Str(s) => s
  }
}

=== FILE: wrappers.dfy ===
/** Optional values and results-or-errors shared by every module of the model. */
module Wrappers {

  /** Python's `None` or a present value. */
  datatype Option<+T> = None | Some(value: T)

  /** A value, or the exception the server would raise instead. */
  datatype Result<+T, +E> = Ok(value: T) | Err(error: E)
}
